=== FILE: README.md ===
# Image-to-Captions: a Dafny model of the captioning batch

`caption_images.py` walks one folder of images. For each supported image that
has no `.txt` sibling yet, it does the following:

- shrinks the image if it is too large;
- sends it as a base64 `data:` URL to a hosted captioning model;
- picks a caption out of the JSON reply;
- writes the caption next to the image and pauses for a second.

This project models the deterministic rules around that I/O and proves what
they guarantee:

- **Json**: the parsed reply. Python's `None` is JSON `Null`, and `dict.get`
  and the one-field `next(iter(d.values()))` are modelled on it.
- **Extraction**: the four-way caption lookup. It is also restated as an
  ordered list of guarded strategies and compared with a fall-through chain.
- **Naming**:
  - `PurePath.suffix` and `stem`;
  - the case-insensitive extension allow-list;
  - discovery of images among directory entries;
  - `with_suffix(".txt")`.
- **Preprocess**: the keep or re-encode decision of `resize_image_if_needed`.
  The image library's decode, thumbnail and save are possibly-failing
  functions held in a `Codec` value.
- **DataUri**: the `data:<mime>;base64,<payload>` URL of section 3 of
  RFC 2397, with a parser that shows it round-trips for a MIME type without a
  comma. It also builds the
  `{"image_url": …}` request body.
- **Batch**:
  - the `try` block for one image, over an `Env` that supplies the outside
    world: file reads, the codec, the MIME guess, base64 and the HTTP call;
  - the loop as a fold over the discovered images. The state is the set of
    caption paths on disk, the number of API calls and the number of
    one-second pauses. The fold also returns one record per image.

The batch properties are proved once for an arbitrary per-image outcome
function (`Loop`) and then specialised to the script (`LoopOf(env)`).

Three behaviours of the code are easy to misread, and the model follows the code in each:

- **Pauses**: the script sleeps only after a caption is written (line 169).
  A reply without a caption, a failed request or an unreadable file is
  followed by no pause. So two API calls can happen back to back: the delay
  meant "to avoid rate limiting" (line 168) does not space out calls that
  follow a failure. `Batch.Step` counts pauses accordingly.
- **Exclusive lookup branches**: the lookup's branches are exclusive, not a
  fall-through. Once `results` is present, or `data` is an object, later
  fields are never read, even when the chosen branch yields nothing.
  `Extraction.NullResultsShadowsResult` shows an input on which the two
  readings differ.
- **Unreadable files**: an image whose bytes cannot be read makes no API call.
  "Exactly one call per image without a caption" therefore holds only for
  readable images (`Batch.RunAccounting`).

## Model

| member | source | states |
|---|---|---|
| `Json.Get` | caption_images.py:151 | `d.get(k)` is the stored value when the key is present and `None` (Null) when it is missing |
| `Json.SoleValue` | caption_images.py:156-157 | for a one-field object, `next(iter(values))` is a value of the object and equals every value in it |
| `Extraction.Extract` | caption_images.py:142-157 | the caption rule, stated as four facts. A non-object gives nothing. A present `results` decides even when null. An object `data` decides through `data.get('results')`. `result` is read only when both are out of play. The last resort applies only to a one-field object holding a string. Any caption found sits at one of those places |
| `Extraction.FirstOwner` | caption_images.py:145-157 | a guarded strategy chain returns what the first strategy whose guard holds reads, and nothing when no guard holds |
| `Extraction.ExtractIsGuardedChain` | caption_images.py:145-157 | the script's lookup equals the guarded chain over the priority order `results`, `data.results`, `result`, sole string |
| `Extraction.GuardedAgreesWhenFound` | caption_images.py:145-157 | whenever the guarded chain finds a caption, a fall-through chain finds the same one. The two differ only on replies where the script finds nothing |
| `Extraction.NullResultsShadowsResult` | caption_images.py:147-154 | `{"results": null, "result": "x"}` yields no caption, while a fall-through chain would yield "x" |
| `Extraction.DataObjectShadowsResult` | caption_images.py:150-154 | an object-valued `data` without `results` yields nothing, and `result` is not consulted |
| `Extraction.SoleStringExamples` | caption_images.py:156-157 | `{"caption": "a fox"}` gives "a fox" and `{"data": "x"}` gives "x". `{"foo": 1, "bar": 2}` gives nothing |
| `Extraction.NamedFieldExamples` | caption_images.py:147-154 | the `results`, `data.results` and `result` reply shapes each deliver their string |
| `Naming.LastIndexOf` | caption_images.py:71 | the `rfind` behind `suffix`: the position holds the character and no later position does; -1 when the character is absent |
| `Naming.Suffix` | caption_images.py:71 | a suffix is empty or a single dotted component that ends the name, and it is never the whole name |
| `Naming.Stem` | caption_images.py:88 | stem followed by suffix gives back the name |
| `Naming.Lower` | caption_images.py:71 | lower-casing keeps the length and maps each character through ASCII case folding |
| `Naming.SupportedHasStem` | caption_images.py:71 | an accepted name has an extension and a non-empty stem in front of it |
| `Naming.Discover` | caption_images.py:69-72 | the image list is no longer than the listing, and every name in it passes the extension test |
| `Naming.DiscoverMembers` | caption_images.py:69-72 | a name is discovered exactly when some entry of that name is a regular file whose lower-cased suffix is allow-listed |
| `Naming.DiscoverAppend` | caption_images.py:69-72 | discovery keeps listing order: it distributes over concatenation of listings |
| `Naming.WithSuffix` | caption_images.py:88 | `with_suffix` yields the stem followed by the new suffix |
| `Naming.CaptionPath` | caption_images.py:88 | the caption path is the image's stem followed by `.txt`. For a non-empty name its stem is the image's stem and its extension is `.txt` |
| `Naming.SplitStemAndExtension` | caption_images.py:88 | only the last extension is replaced. `a.b.png` splits into stem `a.b` and suffix `.png` and captions to `a.b.txt` |
| `Naming.SupportedShape` | caption_images.py:25 | every allow-listed extension is one dot followed by a dot-free name |
| `Naming.AllowedExtensionAccepted` | caption_images.py:25-88 | any non-empty stem followed by one of the four allow-listed extensions is accepted, and captions to the stem followed by `.txt` |
| `Naming.DotOnlyStemAccepted` | caption_images.py:71-88 | a stem made only of dots counts: `..png` is accepted and captions to `..txt` |
| `Naming.AcceptedIffLoweredExtensionAllowed` | caption_images.py:71 | acceptance depends only on the lower-cased extension, whatever the stem |
| `Naming.UpperCaseAccepted` | caption_images.py:71 | `x.JPG` and `x.PNG` are accepted |
| `Naming.DotlessRejected` | caption_images.py:71 | a name without a dot has no suffix and is rejected |
| `Naming.DotFileRejected` | caption_images.py:71 | a dot file such as `.png` has no suffix and is rejected |
| `Naming.CaptionIsNeverAnImage` | caption_images.py:69-88 | a caption path never passes the image filter |
| `Naming.SharedCaptionIffSharedStem` | caption_images.py:88 | two images share a caption path exactly when they share a stem |
| `Preprocess.SaveFormat` | caption_images.py:49 | the save format is never empty, and it is the image's own format whenever one is known |
| `Preprocess.Probe` | caption_images.py:36-37 | the probe fails exactly when opening raises, and otherwise reports the opened image's size |
| `Preprocess.Shrunk` | caption_images.py:46-47 | shrinking fails exactly when opening or `thumbnail` raises. Otherwise the image has the thumbnail's size and pixels and keeps the format it was opened with |
| `Preprocess.Reencode` | caption_images.py:45-53 | re-encoding fails when opening or shrinking fails. Otherwise it is exactly what `save` makes of the shrunk image at quality 85 in its own or the default format, so it succeeds whenever all three steps do |
| `Preprocess.ResizeIfNeeded` | caption_images.py:31-56 | never fails. A small image inside 1024×1024, or a small undecodable one, is kept byte for byte. Anything else is the re-encoding when it succeeds, and the input when it fails |
| `Preprocess.ShrinkOrKeep` | caption_images.py:44-56 | the re-encode path returns the re-encoding whenever it succeeds (line 53), and the input only when it fails (line 56) |
| `Preprocess.LargeFilesIgnoreProbe` | caption_images.py:33-47 | for a file over 5 MiB, the dimension probe plays no part in the result |
| `Preprocess.ShrunkImageFits` | caption_images.py:46-50 | if `thumbnail` keeps its promise, the image handed to `save` fits in the box and keeps the source format |
| `DataUri.MimeOrDefault` | caption_images.py:108-110 | a guessed, non-empty MIME type is used as is. None or an empty guess gives `image/jpeg` |
| `DataUri.Build` | caption_images.py:111 | the URL is laid out as the `data:` scheme, the media type, the `;base64` marker, a comma and the payload, each at its own position |
| `DataUri.ParseBuild` | caption_images.py:111 | parsing the built URL returns the media type, the base64 flag and the payload unchanged |
| `DataUri.BuildInjective` | caption_images.py:111 | distinct media types or payloads never build the same URL |
| `DataUri.ImageDataUri` | caption_images.py:104-111 | when the MIME type (or the default) contains no comma, the URL sent for an image parses back to that type and its base64 text |
| `DataUri.RequestBody` | caption_images.py:115-117 | the request body is an object whose only field is `image_url`, holding the URL |
| `Batch.Request` | caption_images.py:98-117 | the body posted for a readable image is an object with the single field `image_url`, holding a string. When the MIME type (or the default) contains no comma, that string is a data URL that parses to the type and the base64 text of the preprocessed bytes |
| `Batch.Attempt` | caption_images.py:96-174 | no call is made exactly when the read fails. Once the request is posted, the reply alone decides. A transport error, an HTTP error or a non-JSON body is a failed request. For a parsed reply, the outcome is "no caption" exactly when the lookup finds nothing, and "captioned" exactly when it finds a string, which becomes the caption |
| `Batch.Decide` | caption_images.py:88-92 | an image is skipped exactly when its caption path exists. Otherwise its outcome is that of the `try` block |
| `Batch.Step` | caption_images.py:87-174 | one iteration adds a call only for a processed readable image and a pause only after a written caption. It adds to the disk only the written caption path, which appears exactly when it is written |
| `Batch.Fold` | caption_images.py:87-174 | the loop produces one record per image |
| `Batch.Run` | caption_images.py:62-176 | a missing folder or an empty image list ends the run with nothing done. Otherwise there is one record per discovered image |
| `Batch.RecordAt` | caption_images.py:87-174 | record k is about image k and its caption path, and a processed record holds that image's outcome |
| `Batch.FoldAccounting` | caption_images.py:87-174 | the final state is the initial one plus the captions written, one call per processed readable image and one pause per written caption |
| `Batch.ExistingGrows` | caption_images.py:87-174 | the loop never removes a caption file |
| `Batch.SkipsPresent` | caption_images.py:88-92 | an image whose caption exists when the loop starts is skipped |
| `Batch.LaterSameCaptionSkipped` | caption_images.py:88-165 | once an image's caption is written, every later image with the same caption path is skipped |
| `Batch.DonePresent` | caption_images.py:88-169 | after the loop, the caption of every skipped or captioned image is on disk |
| `Batch.SkippedStaysPresent` | caption_images.py:88-92 | a skipped image's caption is on disk after the loop |
| `Batch.WrittenWasAbsent` | caption_images.py:88-165 | a caption the loop writes was not on disk when the loop started |
| `Batch.NoOverwrite` | caption_images.py:88-165 | no two images of a run write the same caption path |
| `Batch.CaptionedPresent` | caption_images.py:159-169 | after the loop, every image whose outcome is a caption has its caption file |
| `Batch.FoldSound` | caption_images.py:159-169 | every caption path the loop adds belongs to an image that was processed and captioned |
| `Batch.OnlyExistingMatters` | caption_images.py:87-174 | the loop's records and files depend on the state only through the captions on disk |
| `Batch.FoldAppend` | caption_images.py:87-174 | the loop over two lists in a row is the loop over the first, then the loop over the second from where the first stopped |
| `Batch.FailureAtHead` | caption_images.py:159-174 | an image at the head of the list that gets no caption leaves the rest of the run's records and caption files unchanged |
| `Batch.FailureIsolation` | caption_images.py:159-174 | an image anywhere in the list that gets no caption at its turn leaves every other record and the caption files exactly as if it were not in the list |
| `Batch.SkippedIffPreexisting` | caption_images.py:88-92 | an image that shares its caption path with no earlier image is skipped exactly when its caption existed before the loop |
| `Batch.CountsPartition` | caption_images.py:87-174 | every record is a call, a skip or an unreadable image, and writes never outnumber calls |
| `Batch.WrittenPathsCount` | caption_images.py:88-165 | when written captions are pairwise distinct, there are as many new files as writes |
| `Batch.RunIsFold` | caption_images.py:69-87 | a run over a listing is the loop over the discovered images, from the captions already on disk |
| `Batch.RunRecord` | caption_images.py:87-174 | record k of a run is about discovered image k and its `.txt` path, and holds that image's outcome when processed |
| `Batch.RunAccounting` | caption_images.py:87-174 | a run's state equals what its records say. The number of calls equals the number of records minus skips minus unreadable files. Pauses never exceed calls |
| `Batch.RunSkipsCaptioned` | caption_images.py:88-92 | an image whose caption was on disk is skipped with no call |
| `Batch.RunNoOverwrite` | caption_images.py:88-165 | a caption a run writes did not exist, and no other image of the run writes it |
| `Batch.AtMostOnePerStem` | caption_images.py:88-92 | of two images sharing a stem (`a.jpg`, `a.png`), at most one is captioned in a run |
| `Batch.RunComplete` | caption_images.py:159-169 | after a run, every discovered image whose attempt ends in a caption (the reply's lookup found a string) has its caption file |
| `Batch.RunSound` | caption_images.py:159-169 | every caption file a run adds belongs to a discovered image whose attempt ended in a caption, and that image's record holds the attempt |
| `Batch.RerunSkipsDone` | caption_images.py:88-92 | a second run skips every image the first run skipped or captioned, whatever the endpoint does the second time |
| `Batch.RerunIsIdempotent` | caption_images.py:87-92 | after a run that skipped or captioned every image, a rerun makes no call and writes nothing |
| `Batch.DistinctStemsSkipPreexisting` | caption_images.py:88-92 | with pairwise distinct stems, a run skips exactly the images whose caption existed before it |
| `Batch.DistinctCaptionsAllCaptioned` | caption_images.py:87-169 | with distinct caption paths and every outcome a caption, calls, pauses and new files are equal in number, and calls plus skips cover the list |
| `Batch.DistinctStemsAllCaptioned` | caption_images.py:87-169 | the same for a run with distinct stems whose attempts all end in captions |
| `Batch.ThreeImagesOnePresent` | caption_images.py:87-169 | three images, the middle one already captioned: one skip, two calls, two pauses, and exactly the two missing captions written |
| `Batch.EndToEndScenario` | caption_images.py:62-176 | a listing that yields three images with distinct stems, one already captioned: three records, one skip, two calls, two pauses, and exactly the three captions on disk afterwards |

## Left out

- HTTP: the headers, the URL, `raise_for_status` and the error-detail formatting with 200-character truncation (lines 81-85, 121-135) are not modelled. The call is the `post` field of `Env`, whose reply is a transport error, an HTTP error, a non-JSON body or a parsed body; all but the last lead to the same outcome.
- Pillow: decoding, `thumbnail` with LANCZOS resampling and `save` (lines 36, 46-53) are opaque functions in `Codec`. A decoded image carries opaque pixel content, so these functions may fail or differ for files of equal size and format. `ShrunkImageFits` assumes the library's own promise about `thumbnail` as a hypothesis. Aspect-ratio preservation and the sizes of the re-encoded bytes are not modelled.
- `base64.b64encode` and `mimetypes.guess_type` (lines 104-108) are the `base64` and `guessMime` fields of `Env`; their contents are not modelled.
- `time.sleep(1.0)` (line 169) is a counter of pauses; wall-clock time is not modelled.
- The text of the `print` logging, the module-level folder resolution (lines 27-29), the pip bootstrap and `mimetypes.init()` (lines 179-189) are not modelled.
- Batch.Attempt: assumes that every `print` inside the `try` succeeds. If stdout cannot encode the reply echoed at line 139, the error is caught at line 173. A reply whose lookup found a string then writes no caption and takes no pause, while the model says `Captioned`.
- Batch.Run: assumes that the `print` calls outside the `try` (lines 62-94) and in the exception handlers (lines 172 and 174) succeed. Some names raise at line 91 or 94, and that ends the whole run. One example is a Linux name that is not valid UTF-8, which pathlib holds as lone surrogates, printed to a strict UTF-8 stdout. Another is a CJK name printed to stdout redirected to a file or pipe whose encoding is cp1252. An HTTP error whose detail stdout cannot encode raises the same way at line 172, since the `HTTPError` raised at line 135 is a `RequestException`. Later images are then never processed. `Batch.FailureIsolation`, `Batch.RunComplete` and the other run lemmas hold only when every `print` succeeds.
- Directory order: the listing is an input sequence, and the model keeps its order. The actual order of `iterdir()` is not modelled.
- Filesystem writes: `write_text` raising for a reason other than a non-string caption (a full disk, permissions) is not modelled; a string caption is always written.
- Captions with lone surrogates: the JSON reply may hold a string with a lone surrogate (`"\ud800"`), which Python keeps in a `str`. UTF-8 cannot encode it. `write_text` creates the file before encoding, so the script leaves an empty caption file, takes no pause, and every later run skips that image. Dafny strings hold Unicode scalar values only and cannot represent such a caption, so this case is not modelled.
- Path identity: a caption path counts as present only when the exact string is in the set of existing paths. This models a case-sensitive filesystem without Unicode normalisation. On a case-insensitive filesystem (the Windows and macOS defaults), `exists()` at line 90 finds `a.txt` for `A.jpg`. `Batch.DistinctStemsSkipPreexisting`, `Batch.DistinctStemsAllCaptioned` and `Batch.EndToEndScenario` then predict a call and a write that the script skips when two stems differ only in case.
- Concurrent runs over the same folder are not modelled; the run is sequential and is the only writer.
- Naming.Lower: lower-cases ASCII letters only. For the allow-list test this is exact, since no non-ASCII character lower-cases to one of the letters in `.jpg`, `.jpeg`, `.png` or `.webp`.
- Naming.Suffix: follows `PurePath.suffix` before Python 3.14: the part from the last dot, when that dot is neither the first nor the last character. From 3.14 `suffix` follows `os.path.splitext`, which skips leading dots and gives a name ending in a dot the suffix `.`. The two rules accept the same names, except names whose stem is only dots. `..png` and `...jpg` are accepted here, and `..png` captions to `..txt` (`Naming.DotOnlyStemAccepted`). From 3.14 both are rejected.
- JSON numbers are reals; the script never inspects them.

=== FILE: base.dfy ===
/** Small shared vocabulary: optional values and bytes. */
module Base {

  /** A value that may be missing: a decode that raised, a MIME type that
      could not be guessed, a file that could not be read. */
  datatype Option<+T> = None | Some(value: T)

  /** An octet, as Python's `bytes` holds them. */
  type Byte = x: int | 0 <= x < 256

  type Bytes = seq<Byte>
}

=== FILE: batch.dfy ===
/** The batch loop of `process_images` (caption_images.py, lines 62-176) as a
    fold over the discovered images. The filesystem enters as the listing and
    the set of caption paths that already exist; everything the loop asks of
    the outside world (reading a file, the image library, the MIME guess,
    base64, the HTTP call) is a field of `Env`.

    The loop is written over a per-image outcome function: what the `try`
    block (lines 96-174) would produce for an image. `Attempt` is that block
    for a given `Env`; `Run` plugs it into the loop. */
module Batch {
  import opened Base
  import opened Json
  import opened Naming
  import Extraction
  import Preprocess
  import DataUri

  /** What the captioning endpoint does with one request: a connection or
      timeout error, a 4xx/5xx status (`raise_for_status`), a body below
      status 400 that is not JSON, or a parsed JSON body. */
  datatype Reply = TransportError | HttpError | NotJson | Parsed(body: Value)

  /** The outside world for one run. `read` is None when `read_bytes` raises. */
  datatype Env = Env(
    read: Path -> Option<Bytes>,
    codec: Preprocess.Codec,
    guessMime: Path -> Option<string>,
    base64: Bytes -> string,
    post: (Path, Value) -> Reply)

  /** What the `try` block makes of an image whose caption is missing. */
  datatype Outcome =
    | Unreadable            // reading the image raised: no call is made
    | RequestFailed         // transport error, HTTP error or non-JSON body
    | NoCaption             // the reply held no caption (`continue` at line 162)
    | NotText               // the caption was not a string: `write_text` raised
    | Captioned(text: string)

  /** Whether the endpoint was called. */
  predicate Called(o: Outcome) {
    !o.Unreadable?
  }

  /** What became of one discovered image. */
  datatype Verdict = Skipped | Processed(outcome: Outcome)

  predicate Wrote(v: Verdict) {
    v.Processed? && v.outcome.Captioned?
  }

  /** One line of the run's report: the image, its caption path, and what became of it. */
  datatype Record = Record(image: Path, caption: Path, verdict: Verdict)

  /** The loop's two ingredients: where an image's caption goes, and what
      the `try` block makes of an image. */
  datatype Loop = Loop(captionOf: Path -> Path, attempt: Path -> Outcome)

  /** The run's state: caption paths present on disk, API calls made, and
      one-second pauses taken. */
  datatype State = State(existing: set<Path>, calls: nat, pauses: nat)

  /** A run: the state it ends in and one record per image, in order. */
  datatype Trace = Trace(final: State, records: seq<Record>)

  /** The folder as the run finds it. */
  datatype Folder = Missing | Listing(entries: seq<Entry>)

  function Init(existing: set<Path>): State {
    State(existing, 0, 0)
  }

  // ---------------------------------------------------------------------
  // One image

  /** The request body sent for an image whose bytes are `raw`:
      `{"image_url": url}` and nothing else, where `url` is a base64 data URL
      of the preprocessed bytes under the guessed (or default) MIME type. */
  function Request(env: Env, image: Path, raw: Bytes): (body: Value)
    ensures body.Object? && body.fields.Keys == {"image_url"} && body.fields["image_url"].Str?
    ensures ',' !in DataUri.MimeOrDefault(env.guessMime(image)) ==>
              DataUri.Parse(body.fields["image_url"].s) == Some(DataUri.DataUrl(
                DataUri.MimeOrDefault(env.guessMime(image)), true,
                env.base64(Preprocess.ResizeIfNeeded(env.codec, raw))))
  {
    var bytes := Preprocess.ResizeIfNeeded(env.codec, raw);
    var url := DataUri.ImageDataUri(env.guessMime(image), env.base64(bytes));
    var body := DataUri.RequestBody(url);
    assert Json.Get(body.fields, "image_url") == Str(url);
    body
  }

  /** The body of the `try` block. */
  function Attempt(env: Env, image: Path): (o: Outcome)
    // no call without the image's bytes
    ensures o.Unreadable? <==> env.read(image).None?
    // once the request is posted, the reply alone decides
    ensures env.read(image).Some? ==>
              var reply := env.post(image, Request(env, image, env.read(image).value));
              && (o.RequestFailed? <==> !reply.Parsed?)
              && (reply.Parsed? ==>
                    && (o.NoCaption? <==> Extraction.Extract(reply.body) == Null)
                    && (o.Captioned? <==> Extraction.Extract(reply.body).Str?)
                    && (o.Captioned? ==> Extraction.Extract(reply.body) == Str(o.text)))
  {
    match env.read(image)
    case None => Unreadable
    case Some(raw) =>
      match env.post(image, Request(env, image, raw))
      case Parsed(resp) =>
        var caption := Extraction.Extract(resp);
        if caption.Null? then NoCaption
        else if caption.Str? then Captioned(caption.s)
        else NotText
      case _ => RequestFailed
  }

  /** `Attempt` for a fixed world, as the loop consumes it. */
  function Outcomes(env: Env): Path -> Outcome {
    (image: Path) => Attempt(env, image)
  }

  // ---------------------------------------------------------------------
  // The loop

  /** The verdict for an image: skipped exactly when its caption exists. */
  function Decide(loop: Loop, existing: set<Path>, image: Path): (v: Verdict)
    ensures v.Skipped? <==> loop.captionOf(image) in existing
    ensures v.Processed? ==> v.outcome == loop.attempt(image)
  {
    if loop.captionOf(image) in existing then Skipped else Processed(loop.attempt(image))
  }

  /** One iteration of the loop. */
  function Step(loop: Loop, s: State, image: Path): (s': State)
    // one call exactly when the image is processed and readable
    ensures s'.calls == s.calls + CountCalled([Record(image, loop.captionOf(image), Decide(loop, s.existing, image))])
    // a pause after, and only after, a written caption
    ensures s'.pauses == s.pauses + CountWritten([Record(image, loop.captionOf(image), Decide(loop, s.existing, image))])
    // the only change on disk is the new caption file
    ensures s'.existing == s.existing + WrittenPaths([Record(image, loop.captionOf(image), Decide(loop, s.existing, image))])
    // a caption appears exactly when one is written; otherwise the disk is unchanged
    ensures Wrote(Decide(loop, s.existing, image)) <==>
              loop.captionOf(image) !in s.existing && loop.captionOf(image) in s'.existing
    ensures !Wrote(Decide(loop, s.existing, image)) ==> s'.existing == s.existing
  {
    var v := Decide(loop, s.existing, image);
    assert [Record(image, loop.captionOf(image), v)][1..] == [];
    State(
      if Wrote(v) then s.existing + {loop.captionOf(image)} else s.existing,
      if v.Processed? && Called(v.outcome) then s.calls + 1 else s.calls,
      if Wrote(v) then s.pauses + 1 else s.pauses)
  }

  /** The caption paths written according to a log. */
  function WrittenPaths(log: seq<Record>): set<Path> {
    if log == [] then {}
    else (if Wrote(log[0].verdict) then {log[0].caption} else {}) + WrittenPaths(log[1..])
  }

  /** Records whose image was sent to the endpoint. */
  function CountCalled(log: seq<Record>): nat {
    if log == [] then 0
    else (if log[0].verdict.Processed? && Called(log[0].verdict.outcome) then 1 else 0)
         + CountCalled(log[1..])
  }

  /** Records whose caption was written. */
  function CountWritten(log: seq<Record>): nat {
    if log == [] then 0 else (if Wrote(log[0].verdict) then 1 else 0) + CountWritten(log[1..])
  }

  /** Records skipped because the caption existed. */
  function CountSkipped(log: seq<Record>): nat {
    if log == [] then 0 else (if log[0].verdict.Skipped? then 1 else 0) + CountSkipped(log[1..])
  }

  /** Records whose image could not be read. */
  function CountUnreadable(log: seq<Record>): nat {
    if log == [] then 0
    else (if log[0].verdict == Processed(Unreadable) then 1 else 0) + CountUnreadable(log[1..])
  }

  /** The loop over the image list. */
  function Fold(loop: Loop, s: State, images: seq<Path>): (t: Trace)
    ensures |t.records| == |images|
    decreases |images|
  {
    if images == [] then Trace(s, [])
    else
      var t := Fold(loop, Step(loop, s, images[0]), images[1..]);
      Trace(t.final, [Record(images[0], loop.captionOf(images[0]), Decide(loop, s.existing, images[0]))] + t.records)
  }

  /** `process_images`: nothing happens when the folder is missing or holds
      no image; otherwise every discovered image goes through one step. */
  function Run(env: Env, folder: Folder, existing: set<Path>): (t: Trace)
    ensures folder.Missing? ==> t == Trace(Init(existing), [])
    ensures folder.Listing? ==> |t.records| == |Discover(folder.entries)|
    ensures folder.Listing? && Discover(folder.entries) == [] ==> t == Trace(Init(existing), [])
  {
    match folder
    case Missing => Trace(Init(existing), [])
    case Listing(entries) =>
      var images := Discover(entries);
      if images == [] then Trace(Init(existing), [])
      else Fold(LoopOf(env), Init(existing), images)
  }

  /** The loop as `process_images` runs it in a given world. */
  function LoopOf(env: Env): Loop {
    Loop(CaptionPath, Outcomes(env))
  }

  // ---------------------------------------------------------------------
  // Properties of the loop, for any per-image outcome function

  /** Record `k > 0` of a fold is record `k - 1` of the fold over the rest. */
  lemma FoldTail(loop: Loop, s: State, images: seq<Path>, k: nat)
    requires 0 < k < |images|
    ensures Fold(loop, s, images).records[k]
            == Fold(loop, Step(loop, s, images[0]), images[1..]).records[k - 1]
    ensures images[k] == images[1..][k - 1]
  {
  }

  /** Record `k` is about image `k`, and is a skip or holds its own outcome. */
  lemma {:induction false} RecordAt(loop: Loop, s: State, images: seq<Path>, k: nat)
    requires k < |images|
    ensures Fold(loop, s, images).records[k].image == images[k]
    ensures Fold(loop, s, images).records[k].caption == loop.captionOf(images[k])
    ensures Fold(loop, s, images).records[k].verdict.Processed? ==>
              Fold(loop, s, images).records[k].verdict.outcome == loop.attempt(images[k])
    decreases k
  {
    if k > 0 {
      FoldTail(loop, s, images, k);
      RecordAt(loop, Step(loop, s, images[0]), images[1..], k - 1);
    }
  }

  /** The state after the loop is the state before plus what the records
      say: the written captions, one call per processed readable image and
      one pause per written caption. */
  lemma {:induction false} FoldAccounting(loop: Loop, s: State, images: seq<Path>)
    ensures var t := Fold(loop, s, images);
            && t.final.existing == s.existing + WrittenPaths(t.records)
            && t.final.calls == s.calls + CountCalled(t.records)
            && t.final.pauses == s.pauses + CountWritten(t.records)
    decreases |images|
  {
    if images != [] {
      var s1 := Step(loop, s, images[0]);
      var rec := Record(images[0], loop.captionOf(images[0]), Decide(loop, s.existing, images[0]));
      FoldAccounting(loop, s1, images[1..]);
      var t := Fold(loop, s, images);
      assert t.records[0] == rec && t.records[1..] == Fold(loop, s1, images[1..]).records;
      assert [rec][1..] == [];
    }
  }

  /** The existing captions only grow. */
  lemma ExistingGrows(loop: Loop, s: State, images: seq<Path>)
    ensures s.existing <= Fold(loop, s, images).final.existing
  {
    FoldAccounting(loop, s, images);
  }

  /** Skip-if-exists: an image whose caption is already there when the loop
      starts is skipped, with no call. */
  lemma {:induction false} SkipsPresent(loop: Loop, s: State, images: seq<Path>, k: nat)
    requires k < |images| && loop.captionOf(images[k]) in s.existing
    ensures Fold(loop, s, images).records[k].verdict == Skipped
    decreases k
  {
    if k > 0 {
      var s1 := Step(loop, s, images[0]);
      FoldTail(loop, s, images, k);
      SkipsPresent(loop, s1, images[1..], k - 1);
    }
  }

  /** Once an image's caption is written, every later image with the same
      caption path is skipped. */
  lemma {:induction false} LaterSameCaptionSkipped(loop: Loop, s: State, images: seq<Path>, i: nat, j: nat)
    requires i < j < |images|
    requires loop.captionOf(images[i]) == loop.captionOf(images[j])
    requires Wrote(Fold(loop, s, images).records[i].verdict)
    ensures Fold(loop, s, images).records[j].verdict == Skipped
    decreases i
  {
    var s1 := Step(loop, s, images[0]);
    FoldTail(loop, s, images, j);
    if i == 0 {
      assert Fold(loop, s, images).records[0] == Record(images[0], loop.captionOf(images[0]), Decide(loop, s.existing, images[0]));
      assert loop.captionOf(images[0]) in s1.existing;
      assert loop.captionOf(images[1..][j - 1]) in s1.existing;
      SkipsPresent(loop, s1, images[1..], j - 1);
    } else {
      FoldTail(loop, s, images, i);
      LaterSameCaptionSkipped(loop, s1, images[1..], i - 1, j - 1);
    }
  }

  /** After the loop, the caption of every image that was skipped or
      captioned is on disk. */
  lemma DonePresent(loop: Loop, s: State, images: seq<Path>, k: nat)
    requires k < |images|
    requires Fold(loop, s, images).records[k].verdict.Skipped?
             || Wrote(Fold(loop, s, images).records[k].verdict)
    ensures loop.captionOf(images[k]) in Fold(loop, s, images).final.existing
  {
    var t := Fold(loop, s, images);
    FoldAccounting(loop, s, images);
    RecordAt(loop, s, images, k);
    if Wrote(t.records[k].verdict) {
      WrittenPathsMembers(t.records, loop.captionOf(images[k]));
    } else {
      SkippedStaysPresent(loop, s, images, k);
    }
  }

  /** A record is a skip only for an image whose caption was on disk at its turn,
      and so is on disk after the loop. */
  lemma {:induction false} SkippedStaysPresent(loop: Loop, s: State, images: seq<Path>, k: nat)
    requires k < |images| && Fold(loop, s, images).records[k].verdict.Skipped?
    ensures loop.captionOf(images[k]) in Fold(loop, s, images).final.existing
    decreases k
  {
    var s1 := Step(loop, s, images[0]);
    if k == 0 {
      ExistingGrows(loop, s1, images[1..]);
    } else {
      FoldTail(loop, s, images, k);
      SkippedStaysPresent(loop, s1, images[1..], k - 1);
    }
  }

  /** A written caption was absent when the loop started. */
  lemma WrittenWasAbsent(loop: Loop, s: State, images: seq<Path>, k: nat)
    requires k < |images| && Wrote(Fold(loop, s, images).records[k].verdict)
    ensures loop.captionOf(images[k]) !in s.existing
  {
    if loop.captionOf(images[k]) in s.existing {
      SkipsPresent(loop, s, images, k);
    }
  }

  /** No overwrite: no two images of a run write the same caption path. */
  lemma NoOverwrite(loop: Loop, s: State, images: seq<Path>, i: nat, j: nat)
    requires i < j < |images|
    requires Wrote(Fold(loop, s, images).records[i].verdict)
    requires Wrote(Fold(loop, s, images).records[j].verdict)
    ensures loop.captionOf(images[i]) != loop.captionOf(images[j])
  {
    if loop.captionOf(images[i]) == loop.captionOf(images[j]) {
      LaterSameCaptionSkipped(loop, s, images, i, j);
    }
  }

  /** Membership in the written paths of a log. */
  lemma {:induction false} WrittenPathsMembers(log: seq<Record>, p: Path)
    ensures p in WrittenPaths(log) <==>
              exists i :: 0 <= i < |log| && Wrote(log[i].verdict) && log[i].caption == p
  {
    if log != [] {
      WrittenPathsMembers(log[1..], p);
      if p in WrittenPaths(log[1..]) {
        var i :| 0 <= i < |log[1..]| && Wrote(log[1..][i].verdict) && log[1..][i].caption == p;
        assert log[i + 1] == log[1..][i];
      }
      if exists i :: 0 <= i < |log| && Wrote(log[i].verdict) && log[i].caption == p {
        var i :| 0 <= i < |log| && Wrote(log[i].verdict) && log[i].caption == p;
        if i > 0 { assert log[1..][i - 1] == log[i]; }
      }
    }
  }

  /** Completeness: after the loop, an image whose outcome is a caption has
      its caption file, written now or found already there. */
  lemma {:induction false} CaptionedPresent(loop: Loop, s: State, images: seq<Path>, k: nat)
    requires k < |images| && loop.attempt(images[k]).Captioned?
    ensures loop.captionOf(images[k]) in Fold(loop, s, images).final.existing
    decreases k
  {
    var s1 := Step(loop, s, images[0]);
    if k == 0 {
      ExistingGrows(loop, s1, images[1..]);
    } else {
      FoldTail(loop, s, images, k);
      CaptionedPresent(loop, s1, images[1..], k - 1);
    }
  }

  /** Soundness: every caption path the loop adds belongs to an image that
      was processed and produced a caption. */
  lemma FoldSound(loop: Loop, s: State, images: seq<Path>, p: Path)
    requires p in Fold(loop, s, images).final.existing && p !in s.existing
    ensures exists k :: 0 <= k < |images| && loop.captionOf(images[k]) == p
              && Wrote(Fold(loop, s, images).records[k].verdict)
              && loop.attempt(images[k]).Captioned?
  {
    var recs := Fold(loop, s, images).records;
    FoldAccounting(loop, s, images);
    WrittenPathsMembers(recs, p);
    var k :| 0 <= k < |recs| && Wrote(recs[k].verdict) && recs[k].caption == p;
    RecordAt(loop, s, images, k);
  }

  /** What the loop does depends on the state only through the existing
      captions: the counters play no part. */
  lemma {:induction false} OnlyExistingMatters(loop: Loop, s1: State, s2: State, images: seq<Path>)
    requires s1.existing == s2.existing
    ensures Fold(loop, s1, images).records == Fold(loop, s2, images).records
    ensures Fold(loop, s1, images).final.existing == Fold(loop, s2, images).final.existing
    decreases |images|
  {
    if images != [] {
      var x := images[0];
      OnlyExistingMatters(loop, Step(loop, s1, x), Step(loop, s2, x), images[1..]);
    }
  }

  /** The loop over `a + b` is the loop over `a` followed by the loop over
      `b` from where the first one stopped. */
  lemma {:induction false} FoldAppend(loop: Loop, s: State, a: seq<Path>, b: seq<Path>)
    ensures var first := Fold(loop, s, a);
            var second := Fold(loop, first.final, b);
            Fold(loop, s, a + b) == Trace(second.final, first.records + second.records)
    decreases |a|
  {
    if a == [] {
      assert a + b == b;
    } else {
      assert (a + b)[0] == a[0] && (a + b)[1..] == a[1..] + b;
      FoldAppend(loop, Step(loop, s, a[0]), a[1..], b);
    }
  }

  /** Failure isolation at the head of the list. */
  lemma FailureAtHead(loop: Loop, s: State, image: Path, rest: seq<Path>)
    requires !Wrote(Decide(loop, s.existing, image))
    ensures Fold(loop, s, [image] + rest).records
            == [Record(image, loop.captionOf(image), Decide(loop, s.existing, image))] + Fold(loop, s, rest).records
    ensures Fold(loop, s, [image] + rest).final.existing == Fold(loop, s, rest).final.existing
  {
    var images := [image] + rest;
    assert images[0] == image && images[1..] == rest;
    OnlyExistingMatters(loop, Step(loop, s, image), s, rest);
  }

  /** Failure isolation: an image, anywhere in the list, that gets no caption
      at its turn leaves every other record and the caption files exactly as
      if it had not been in the list. */
  lemma FailureIsolation(loop: Loop, s: State, prefix: seq<Path>, image: Path, rest: seq<Path>)
    requires !Wrote(Decide(loop, Fold(loop, s, prefix).final.existing, image))
    ensures var with := Fold(loop, s, prefix + [image] + rest);
            var without := Fold(loop, s, prefix + rest);
            var v := Decide(loop, Fold(loop, s, prefix).final.existing, image);
            && with.records == without.records[..|prefix|]
                               + [Record(image, loop.captionOf(image), v)]
                               + without.records[|prefix|..]
            && with.final.existing == without.final.existing
  {
    var mid := Fold(loop, s, prefix);
    assert prefix + [image] + rest == prefix + ([image] + rest);
    FoldAppend(loop, s, prefix, [image] + rest);
    FoldAppend(loop, s, prefix, rest);
    FailureAtHead(loop, mid.final, image, rest);
    var without := Fold(loop, s, prefix + rest);
    assert without.records[..|prefix|] == mid.records;
    assert without.records[|prefix|..] == Fold(loop, mid.final, rest).records;
  }

  /** An image that no earlier image shares a caption path with is skipped
      exactly when its caption existed before the loop. */
  lemma {:induction false} SkippedIffPreexisting(loop: Loop, s: State, images: seq<Path>, k: nat)
    requires k < |images|
    requires forall i :: 0 <= i < k ==> loop.captionOf(images[i]) != loop.captionOf(images[k])
    ensures Fold(loop, s, images).records[k].verdict.Skipped? <==> loop.captionOf(images[k]) in s.existing
    decreases k
  {
    if k > 0 {
      var s1 := Step(loop, s, images[0]);
      var rest := images[1..];
      FoldTail(loop, s, images, k);
      assert loop.captionOf(images[0]) != loop.captionOf(images[k]);
      assert loop.captionOf(rest[k - 1]) in s1.existing <==> loop.captionOf(images[k]) in s.existing;
      forall i | 0 <= i < k - 1 ensures loop.captionOf(rest[i]) != loop.captionOf(rest[k - 1]) {
        assert rest[i] == images[i + 1];
      }
      SkippedIffPreexisting(loop, s1, rest, k - 1);
    }
  }

  // ---------------------------------------------------------------------
  // Counting

  /** Every record is a skip, an unreadable image, or a call; and every
      written caption came from a call. */
  lemma {:induction false} CountsPartition(log: seq<Record>)
    ensures CountCalled(log) + CountSkipped(log) + CountUnreadable(log) == |log|
    ensures CountWritten(log) <= CountCalled(log)
  {
    if log != [] { CountsPartition(log[1..]); }
  }

  /** When the written captions are pairwise distinct, there are as many
      new caption paths as written records. */
  lemma {:induction false} WrittenPathsCount(log: seq<Record>)
    requires forall i, j :: 0 <= i < j < |log| && Wrote(log[i].verdict) && Wrote(log[j].verdict) ==>
               log[i].caption != log[j].caption
    ensures |WrittenPaths(log)| == CountWritten(log)
  {
    if log != [] {
      var rest := log[1..];
      assert forall i :: 0 <= i < |rest| ==> rest[i] == log[i + 1];
      WrittenPathsCount(rest);
      if Wrote(log[0].verdict) {
        WrittenPathsMembers(rest, log[0].caption);
      }
    }
  }

  /** No record is a call. */
  lemma {:induction false} NoneCalled(log: seq<Record>)
    requires forall i :: 0 <= i < |log| ==> log[i].verdict.Skipped?
    ensures CountCalled(log) == 0 && WrittenPaths(log) == {}
  {
    if log != [] {
      assert forall i :: 0 <= i < |log[1..]| ==> log[1..][i] == log[i + 1];
      NoneCalled(log[1..]);
    }
  }

  // ---------------------------------------------------------------------
  // Properties of a whole run

  /** A run over a listing is the loop over the discovered images. */
  lemma RunIsFold(env: Env, entries: seq<Entry>, existing: set<Path>)
    ensures Run(env, Listing(entries), existing) == Fold(LoopOf(env), Init(existing), Discover(entries))
  {
  }

  /** Record `k` of a run is about discovered image `k`: skipped, or holding
      what the `try` block makes of that image. */
  lemma RunRecord(env: Env, entries: seq<Entry>, existing: set<Path>, k: nat)
    requires k < |Discover(entries)|
    ensures var image := Discover(entries)[k];
            var rec := Run(env, Listing(entries), existing).records[k];
            && rec.image == image
            && rec.caption == CaptionPath(image)
            && (rec.verdict.Processed? ==> rec.verdict.outcome == Attempt(env, image))
  {
    RecordAt(LoopOf(env), Init(existing), Discover(entries), k);
  }

  /** A run's final state is its start plus what its records say; every
      image is skipped, unreadable or sent, and pauses follow writes only. */
  lemma RunAccounting(env: Env, folder: Folder, existing: set<Path>)
    ensures var t := Run(env, folder, existing);
            && t.final.existing == existing + WrittenPaths(t.records)
            && t.final.calls == CountCalled(t.records)
            && t.final.pauses == CountWritten(t.records)
            && t.final.calls + CountSkipped(t.records) + CountUnreadable(t.records) == |t.records|
            && t.final.pauses <= t.final.calls
  {
    var t := Run(env, folder, existing);
    if folder.Listing? {
      FoldAccounting(LoopOf(env), Init(existing), Discover(folder.entries));
    }
    CountsPartition(t.records);
  }

  /** Skip-if-exists across the whole run: an image whose caption was on
      disk is never sent to the endpoint. */
  lemma RunSkipsCaptioned(env: Env, entries: seq<Entry>, existing: set<Path>, k: nat)
    requires k < |Discover(entries)| && CaptionPath(Discover(entries)[k]) in existing
    ensures Run(env, Listing(entries), existing).records[k].verdict == Skipped
  {
    SkipsPresent(LoopOf(env), Init(existing), Discover(entries), k);
  }

  /** A caption the run writes was not on disk before, and no other image of
      the run writes it. */
  lemma RunNoOverwrite(env: Env, entries: seq<Entry>, existing: set<Path>, i: nat, j: nat)
    requires i < j < |Discover(entries)|
    requires Wrote(Run(env, Listing(entries), existing).records[i].verdict)
    ensures CaptionPath(Discover(entries)[i]) !in existing
    ensures Wrote(Run(env, Listing(entries), existing).records[j].verdict) ==>
              CaptionPath(Discover(entries)[i]) != CaptionPath(Discover(entries)[j])
  {
    var loop, images := LoopOf(env), Discover(entries);
    WrittenWasAbsent(loop, Init(existing), images, i);
    if Wrote(Run(env, Listing(entries), existing).records[j].verdict) {
      NoOverwrite(loop, Init(existing), images, i, j);
    }
  }

  /** Of two discovered images sharing a stem (`a.jpg`, `a.png`), at most one
      is captioned in a run. */
  lemma AtMostOnePerStem(env: Env, entries: seq<Entry>, existing: set<Path>, i: nat, j: nat)
    requires i < j < |Discover(entries)|
    requires Stem(Discover(entries)[i]) == Stem(Discover(entries)[j])
    ensures !(Wrote(Run(env, Listing(entries), existing).records[i].verdict)
              && Wrote(Run(env, Listing(entries), existing).records[j].verdict))
  {
    var images := Discover(entries);
    SharedCaptionIffSharedStem(images[i], images[j]);
    if Wrote(Run(env, Listing(entries), existing).records[i].verdict) {
      RunNoOverwrite(env, entries, existing, i, j);
    }
  }

  /** Completeness: after a run, every discovered image whose attempt ends
      in a caption has its caption file. */
  lemma RunComplete(env: Env, entries: seq<Entry>, existing: set<Path>, k: nat)
    requires k < |Discover(entries)| && Attempt(env, Discover(entries)[k]).Captioned?
    ensures CaptionPath(Discover(entries)[k]) in Run(env, Listing(entries), existing).final.existing
  {
    CaptionedPresent(LoopOf(env), Init(existing), Discover(entries), k);
  }

  /** Soundness: every caption file a run adds belongs to a discovered image
      whose attempt ended in a caption, and that image's record holds it. */
  lemma RunSound(env: Env, entries: seq<Entry>, existing: set<Path>, p: Path)
    requires p in Run(env, Listing(entries), existing).final.existing && p !in existing
    ensures exists k :: 0 <= k < |Discover(entries)|
              && CaptionPath(Discover(entries)[k]) == p
              && Attempt(env, Discover(entries)[k]).Captioned?
              && Run(env, Listing(entries), existing).records[k].verdict
                 == Processed(Attempt(env, Discover(entries)[k]))
  {
    var loop, images := LoopOf(env), Discover(entries);
    RunIsFold(env, entries, existing);
    var t := Fold(loop, Init(existing), images);
    FoldSound(loop, Init(existing), images, p);
    var k :| 0 <= k < |images| && loop.captionOf(images[k]) == p
             && Wrote(t.records[k].verdict) && loop.attempt(images[k]).Captioned?;
    RecordAt(loop, Init(existing), images, k);
    assert Attempt(env, images[k]) == loop.attempt(images[k]);
    assert t.records[k].verdict == Processed(Attempt(env, images[k]));
  }

  /** Rerunning over the same folder skips every image the first run
      captioned or found captioned, whatever the endpoint does the second time. */
  lemma RerunSkipsDone(env1: Env, env2: Env, entries: seq<Entry>, existing: set<Path>, k: nat)
    requires k < |Discover(entries)|
    requires !Run(env1, Listing(entries), existing).records[k].verdict.Processed?
             || Wrote(Run(env1, Listing(entries), existing).records[k].verdict)
    ensures var first := Run(env1, Listing(entries), existing);
            Run(env2, Listing(entries), first.final.existing).records[k].verdict == Skipped
  {
    var images := Discover(entries);
    RunIsFold(env1, entries, existing);
    var first := Fold(LoopOf(env1), Init(existing), images);
    DonePresent(LoopOf(env1), Init(existing), images, k);
    RunIsFold(env2, entries, first.final.existing);
    SkipsPresent(LoopOf(env2), Init(first.final.existing), images, k);
  }

  /** Idempotence: after a run in which every image was skipped or captioned,
      a second run makes no call and writes nothing. */
  lemma RerunIsIdempotent(env1: Env, env2: Env, entries: seq<Entry>, existing: set<Path>)
    requires forall k :: 0 <= k < |Discover(entries)| ==>
               !Run(env1, Listing(entries), existing).records[k].verdict.Processed?
               || Wrote(Run(env1, Listing(entries), existing).records[k].verdict)
    ensures var first := Run(env1, Listing(entries), existing);
            var second := Run(env2, Listing(entries), first.final.existing);
            second.final.calls == 0 && second.final.existing == first.final.existing
  {
    var first := Run(env1, Listing(entries), existing);
    var second := Run(env2, Listing(entries), first.final.existing);
    forall k | 0 <= k < |second.records| ensures second.records[k].verdict.Skipped? {
      RerunSkipsDone(env1, env2, entries, existing, k);
    }
    NoneCalled(second.records);
    RunAccounting(env2, Listing(entries), first.final.existing);
  }

  /** With pairwise distinct stems, a run skips exactly the images whose
      caption was on disk before it started. */
  lemma DistinctStemsSkipPreexisting(env: Env, entries: seq<Entry>, existing: set<Path>, k: nat)
    requires forall i, j :: 0 <= i < j < |Discover(entries)| ==>
               Stem(Discover(entries)[i]) != Stem(Discover(entries)[j])
    requires k < |Discover(entries)|
    ensures Run(env, Listing(entries), existing).records[k].verdict.Skipped?
            <==> CaptionPath(Discover(entries)[k]) in existing
  {
    var images := Discover(entries);
    RunIsFold(env, entries, existing);
    forall i | 0 <= i < k ensures CaptionPath(images[i]) != CaptionPath(images[k]) {
      SharedCaptionIffSharedStem(images[i], images[k]);
    }
    SkippedIffPreexisting(LoopOf(env), Init(existing), images, k);
  }

  /** The loop over images with pairwise distinct caption paths, each of
      whose outcome is a caption: one call per captioned image, and as many
      new caption files as calls. */
  lemma DistinctCaptionsAllCaptioned(loop: Loop, s: State, images: seq<Path>)
    requires forall i, j :: 0 <= i < j < |images| ==> loop.captionOf(images[i]) != loop.captionOf(images[j])
    requires forall k :: 0 <= k < |images| ==> loop.attempt(images[k]).Captioned?
    ensures var t := Fold(loop, s, images);
            && t.final.calls - s.calls == t.final.pauses - s.pauses == |t.final.existing - s.existing|
            && t.final.calls - s.calls + CountSkipped(t.records) == |images|
  {
    var t := Fold(loop, s, images);
    FoldAccounting(loop, s, images);
    CountsPartition(t.records);
    forall k | 0 <= k < |t.records|
      ensures t.records[k].verdict.Skipped? || Wrote(t.records[k].verdict)
    {
      RecordAt(loop, s, images, k);
    }
    CallsAreWrites(t.records);
    forall i, j | 0 <= i < j < |t.records| && Wrote(t.records[i].verdict) && Wrote(t.records[j].verdict)
      ensures t.records[i].caption != t.records[j].caption
    {
      RecordAt(loop, s, images, i);
      RecordAt(loop, s, images, j);
    }
    WrittenPathsCount(t.records);
    forall p | p in WrittenPaths(t.records) ensures p !in s.existing {
      WrittenPathsMembers(t.records, p);
      var k :| 0 <= k < |t.records| && Wrote(t.records[k].verdict) && t.records[k].caption == p;
      RecordAt(loop, s, images, k);
      WrittenWasAbsent(loop, s, images, k);
    }
    assert t.final.existing - s.existing == WrittenPaths(t.records);
  }

  /** A run with pairwise distinct stems in which every attempt ends in a
      caption. Each image is skipped or captioned, one call
      per captioned image, and as many new caption files as calls. */
  lemma DistinctStemsAllCaptioned(env: Env, entries: seq<Entry>, existing: set<Path>)
    requires forall i, j :: 0 <= i < j < |Discover(entries)| ==>
               Stem(Discover(entries)[i]) != Stem(Discover(entries)[j])
    requires forall k :: 0 <= k < |Discover(entries)| ==> Attempt(env, Discover(entries)[k]).Captioned?
    ensures var t := Run(env, Listing(entries), existing);
            && t.final.calls == t.final.pauses == |t.final.existing - existing|
            && t.final.calls + CountSkipped(t.records) == |t.records|
  {
    var loop, images := LoopOf(env), Discover(entries);
    RunIsFold(env, entries, existing);
    forall i, j | 0 <= i < j < |images| ensures loop.captionOf(images[i]) != loop.captionOf(images[j]) {
      SharedCaptionIffSharedStem(images[i], images[j]);
    }
    forall k | 0 <= k < |images| ensures loop.attempt(images[k]).Captioned? {
      assert loop.attempt(images[k]) == Attempt(env, images[k]);
    }
    DistinctCaptionsAllCaptioned(loop, Init(existing), images);
  }

  /** Three images whose caption paths differ, the middle one already
      captioned and the other two answered with a caption: one skip, two
      calls, two pauses, and exactly the two missing captions written. */
  lemma ThreeImagesOnePresent(loop: Loop, s: State, x: Path, y: Path, z: Path)
    requires loop.captionOf(x) != loop.captionOf(y) && loop.captionOf(y) != loop.captionOf(z)
    requires loop.captionOf(x) != loop.captionOf(z)
    requires loop.captionOf(y) in s.existing
    requires loop.captionOf(x) !in s.existing && loop.captionOf(z) !in s.existing
    requires loop.attempt(x).Captioned? && loop.attempt(z).Captioned?
    ensures var t := Fold(loop, s, [x, y, z]);
            && |t.records| == 3 && CountSkipped(t.records) == 1
            && t.final.calls == s.calls + 2 && t.final.pauses == s.pauses + 2
            && t.final.existing == s.existing + {loop.captionOf(x), loop.captionOf(z)}
  {
    var s1 := Step(loop, s, x);
    var s2 := Step(loop, s1, y);
    var s3 := Step(loop, s2, z);
    var rx := Record(x, loop.captionOf(x), Processed(loop.attempt(x)));
    var ry := Record(y, loop.captionOf(y), Skipped);
    var rz := Record(z, loop.captionOf(z), Processed(loop.attempt(z)));
    assert [x, y, z][1..] == [y, z] && [y, z][1..] == [z] && [z][1..] == [];
    assert s1 == State(s.existing + {loop.captionOf(x)}, s.calls + 1, s.pauses + 1);
    assert s2 == s1;
    assert s3 == State(s1.existing + {loop.captionOf(z)}, s.calls + 2, s.pauses + 2);
    assert Fold(loop, s3, []) == Trace(s3, []);
    assert Fold(loop, s2, [z]) == Trace(s3, [rz]);
    assert Fold(loop, s1, [y, z]) == Trace(s3, [ry, rz]);
    assert Fold(loop, s, [x, y, z]) == Trace(s3, [rx, ry, rz]);
    assert [rx, ry, rz][1..] == [ry, rz] && [ry, rz][1..] == [rz] && [rz][1..] == [];
    assert CountSkipped([rz]) == 0;
    assert CountSkipped([ry, rz]) == 1;
  }

  /** The end-to-end scenario: a listing in which discovery finds three
      images with distinct stems (unsupported files are dropped by
      `Discover`), the second already captioned, and replies carrying a
      caption for the other two. The run reports three images, skips one,
      makes two calls, pauses twice and writes exactly the two missing
      captions. */
  lemma EndToEndScenario(env: Env, entries: seq<Entry>, x: Path, y: Path, z: Path)
    requires Discover(entries) == [x, y, z]
    requires Stem(x) != Stem(y) && Stem(y) != Stem(z) && Stem(x) != Stem(z)
    requires Attempt(env, x).Captioned? && Attempt(env, z).Captioned?
    ensures var t := Run(env, Listing(entries), {CaptionPath(y)});
            && |t.records| == 3 && CountSkipped(t.records) == 1
            && t.final.calls == 2 && t.final.pauses == 2
            && t.final.existing == {CaptionPath(x), CaptionPath(y), CaptionPath(z)}
  {
    RunIsFold(env, entries, {CaptionPath(y)});
    ScenarioLoop(env, x, y, z);
  }

  /** The loop of the end-to-end scenario, over its three images. */
  lemma ScenarioLoop(env: Env, x: Path, y: Path, z: Path)
    requires Stem(x) != Stem(y) && Stem(y) != Stem(z) && Stem(x) != Stem(z)
    requires Attempt(env, x).Captioned? && Attempt(env, z).Captioned?
    ensures var t := Fold(LoopOf(env), Init({CaptionPath(y)}), [x, y, z]);
            && |t.records| == 3 && CountSkipped(t.records) == 1
            && t.final.calls == 2 && t.final.pauses == 2
            && t.final.existing == {CaptionPath(x), CaptionPath(y), CaptionPath(z)}
  {
    ScenarioPremises(env, x, y, z);
    ThreeImagesOnePresent(LoopOf(env), Init({CaptionPath(y)}), x, y, z);
  }

  /** The scenario's assumptions, restated about the run's loop. */
  lemma ScenarioPremises(env: Env, x: Path, y: Path, z: Path)
    requires Stem(x) != Stem(y) && Stem(y) != Stem(z) && Stem(x) != Stem(z)
    requires Attempt(env, x).Captioned? && Attempt(env, z).Captioned?
    ensures var loop := LoopOf(env);
            && loop.captionOf(x) == CaptionPath(x) && loop.captionOf(y) == CaptionPath(y)
            && loop.captionOf(z) == CaptionPath(z)
            && CaptionPath(x) != CaptionPath(y) && CaptionPath(y) != CaptionPath(z)
            && CaptionPath(x) != CaptionPath(z)
            && loop.attempt(x).Captioned? && loop.attempt(z).Captioned?
  {
    LoopAttempt(env, x);
    LoopAttempt(env, z);
    SharedCaptionIffSharedStem(x, y);
    SharedCaptionIffSharedStem(y, z);
    SharedCaptionIffSharedStem(x, z);
  }

  /** The loop of a run attempts an image exactly as `Attempt` does. */
  lemma LoopAttempt(env: Env, image: Path)
    ensures LoopOf(env).attempt(image) == Attempt(env, image)
  {
  }

  /** When every record is a skip or a write, calls and writes coincide. */
  lemma {:induction false} CallsAreWrites(log: seq<Record>)
    requires forall i :: 0 <= i < |log| ==> log[i].verdict.Skipped? || Wrote(log[i].verdict)
    ensures CountCalled(log) == CountWritten(log)
    ensures CountUnreadable(log) == 0
  {
    if log != [] {
      assert forall i :: 0 <= i < |log[1..]| ==> log[1..][i] == log[i + 1];
      CallsAreWrites(log[1..]);
    }
  }
}

=== FILE: datauri.dfy ===
/** The request payload (caption_images.py, lines 104-117): a data URL in the
    form of section 3 of RFC 2397, `data:<mediatype>;base64,<data>`. Base64
    itself (section 4 of RFC 4648) and the MIME guess are supplied by the
    caller. */
module DataUri {
  import opened Base
  import Json

  /** MIME type used when no type can be guessed from the file name. */
  const DefaultMime: string := "image/jpeg"

  const Scheme: string := "data:"
  const Base64Marker: string := ";base64"

  /** `mime_type` after `if not mime_type: mime_type = 'image/jpeg'`:
      both None and the empty string count as "no guess". */
  function MimeOrDefault(guess: Option<string>): (mime: string)
    ensures mime != ""
    ensures guess.Some? && guess.value != "" ==> mime == guess.value
    ensures guess.None? || guess.value == "" ==> mime == DefaultMime
  {
    if guess.None? || guess.value == "" then DefaultMime else guess.value
  }

  /** The f-string `data:{mime_type};base64,{base64_string}`: the scheme, then
      the media type, then the `;base64` marker and a comma, then the payload. */
  function Build(mime: string, payload: string): (url: string)
    ensures |url| == |Scheme| + |mime| + |Base64Marker| + 1 + |payload|
    ensures url[..|Scheme|] == Scheme
    ensures url[|Scheme|..|Scheme| + |mime|] == mime
    ensures url[|Scheme| + |mime|..|url| - |payload| - 1] == Base64Marker
    ensures url[|url| - |payload| - 1] == ','
    ensures url[|url| - |payload|..] == payload
  {
    Scheme + mime + Base64Marker + "," + payload
  }

  /** A parsed data URL: the media type as written, whether the `;base64`
      extension was present, and the data after the first comma. */
  datatype DataUrl = DataUrl(mediaType: string, isBase64: bool, data: string)

  /** Index of the first `c` in `s`, or -1. */
  function IndexOf(s: string, c: char): (i: int)
    ensures -1 <= i < |s|
    ensures i >= 0 ==> s[i] == c
    ensures forall j :: 0 <= j < |s| && (i < 0 || j < i) ==> s[j] != c
  {
    if |s| == 0 then -1
    else if s[0] == c then 0
    else
      var k := IndexOf(s[1..], c);
      if k < 0 then -1 else k + 1
  }

  /** Reads a `data:` URL: the header runs to the first comma, and a header
      ending in `;base64` marks base64 data. */
  function Parse(url: string): Option<DataUrl> {
    if |url| < |Scheme| || url[..|Scheme|] != Scheme then None
    else
      var rest := url[|Scheme|..];
      var comma := IndexOf(rest, ',');
      if comma < 0 then None
      else
        var header := rest[..comma];
        var data := rest[comma + 1..];
        if |header| >= |Base64Marker| && header[|header| - |Base64Marker|..] == Base64Marker
        then Some(DataUrl(header[..|header| - |Base64Marker|], true, data))
        else Some(DataUrl(header, false, data))
  }

  /** Reading the built URL gives back the media type and the payload, for
      any media type free of commas. The registered image types have none,
      though `mimetypes` may read a type containing one from a local table. The
      payload is arbitrary: everything after the first comma is data. */
  lemma ParseBuild(mime: string, payload: string)
    requires ',' !in mime
    ensures Parse(Build(mime, payload)) == Some(DataUrl(mime, true, payload))
  {
    var url := Build(mime, payload);
    var rest := mime + Base64Marker + "," + payload;
    assert url == Scheme + rest;
    assert url[..|Scheme|] == Scheme;
    assert url[|Scheme|..] == rest;
    var h := mime + Base64Marker;
    assert rest == h + "," + payload;
    assert forall j :: 0 <= j < |h| ==> h[j] != ',' by {
      forall j | 0 <= j < |h| ensures h[j] != ',' {
        if j < |mime| { assert h[j] == mime[j]; } else { assert h[j] == Base64Marker[j - |mime|]; }
      }
    }
    assert rest[|h|] == ',';
    assert forall j :: 0 <= j < |h| ==> rest[j] == h[j];
    assert IndexOf(rest, ',') == |h|;
    assert rest[..|h|] == h;
    assert rest[|h| + 1..] == payload;
    assert h[|h| - |Base64Marker|..] == Base64Marker;
    assert h[..|h| - |Base64Marker|] == mime;
  }

  /** Different media types or payloads never build the same URL. */
  lemma BuildInjective(m1: string, p1: string, m2: string, p2: string)
    requires ',' !in m1 && ',' !in m2
    requires Build(m1, p1) == Build(m2, p2)
    ensures m1 == m2 && p1 == p2
  {
    ParseBuild(m1, p1);
    ParseBuild(m2, p2);
  }

  /** The URL sent for an image: its guessed type (or the default) and the
      base64 text of its preprocessed bytes. */
  function ImageDataUri(guess: Option<string>, base64: string): (url: string)
    ensures ',' !in MimeOrDefault(guess) ==>
              Parse(url) == Some(DataUrl(MimeOrDefault(guess), true, base64))
  {
    var mime := MimeOrDefault(guess);
    if ',' !in mime then ParseBuild(mime, base64); Build(mime, base64)
    else Build(mime, base64)
  }

  /** The JSON body of the request: `{"image_url": <data URL>}` and nothing else. */
  function RequestBody(url: string): (body: Json.Value)
    ensures body.Object? && body.fields.Keys == {"image_url"}
    ensures Json.Get(body.fields, "image_url") == Json.Str(url)
  {
    Json.Object(map["image_url" := Json.Str(url)])
  }
}

=== FILE: extraction.dfy ===
/** Picking a caption out of the captioning service's JSON reply
    (caption_images.py, lines 142-157). Python's None is JSON `Null` here: a
    missing key read with `.get` and a present key holding null are the same
    "no caption" to the caller. */
module Extraction {
  import opened Json

  /** The reply shape the script looks for, given the fields of an object. */
  function Extract(resp: Value): (caption: Value)
    // anything but an object yields nothing
    ensures !resp.Object? ==> caption == Null
    // `results` wins whenever present, even when it holds null
    ensures resp.Object? && "results" in resp.fields ==>
              caption == resp.fields["results"]
    // `data` is consulted only as an object, and never falls through to `result`
    ensures resp.Object? && "results" !in resp.fields
            && "data" in resp.fields && resp.fields["data"].Object? ==>
              caption == Get(resp.fields["data"].fields, "results")
    // `result` only when `results` is absent and `data` is absent or not an object
    ensures resp.Object? && "results" !in resp.fields
            && !("data" in resp.fields && resp.fields["data"].Object?)
            && "result" in resp.fields ==>
              caption == resp.fields["result"]
    // the last resort: exactly one field, holding a string
    ensures resp.Object? && "results" !in resp.fields
            && !("data" in resp.fields && resp.fields["data"].Object?)
            && "result" !in resp.fields ==>
              caption == (if |resp.fields| == 1 && SoleValue(resp.fields).Str?
                          then SoleValue(resp.fields) else Null)
    // a caption always comes from one of the four places
    ensures caption != Null ==> resp.Object? && FoundAt(resp.fields, caption)
  {
    if resp.Object? then
      var fields := resp.fields;
      if "results" in fields then fields["results"]
      else if "data" in fields && fields["data"].Object? then Get(fields["data"].fields, "results")
      else if "result" in fields then fields["result"]
      else if |fields| == 1 && SoleValue(fields).Str? then SoleValue(fields)
      else Null
    else Null
  }

  /** `v` sits at one of the places a caption may come from. */
  ghost predicate FoundAt(fields: map<string, Value>, v: Value) {
    || ("results" in fields && fields["results"] == v)
    || ("data" in fields && fields["data"].Object? && Get(fields["data"].fields, "results") == v)
    || ("result" in fields && fields["result"] == v)
    || (|fields| == 1 && v.Str? && v in fields.Values)
  }

  // ---------------------------------------------------------------------
  // The same rule as an ordered list of strategies, each with a guard that
  // decides whether it owns the reply and a reader that produces the caption.

  datatype Strategy = ResultsField | NestedDataResults | ResultField | SoleStringField

  /** The priority order the script tries. */
  const Priority: seq<Strategy> := [ResultsField, NestedDataResults, ResultField, SoleStringField]

  /** Whether a strategy's guard holds of an object. */
  predicate Owns(st: Strategy, fields: map<string, Value>) {
    match st
    case ResultsField => "results" in fields
    case NestedDataResults => "data" in fields && fields["data"].Object?
    case ResultField => "result" in fields
    case SoleStringField => |fields| == 1 && SoleValue(fields).Str?
  }

  /** What a strategy reads once its guard holds. */
  function Read(st: Strategy, fields: map<string, Value>): Value
    requires Owns(st, fields)
  {
    match st
    case ResultsField => fields["results"]
    case NestedDataResults => Get(fields["data"].fields, "results")
    case ResultField => fields["result"]
    case SoleStringField => SoleValue(fields)
  }

  /** Guarded chain: the first strategy whose guard holds decides, whatever it reads. */
  function FirstOwner(chain: seq<Strategy>, fields: map<string, Value>): (v: Value)
    // the outcome is that of the first owning strategy, or nothing if none owns
    ensures (forall i :: 0 <= i < |chain| ==> !Owns(chain[i], fields)) ==> v == Null
    ensures forall i ::
              (0 <= i < |chain| && Owns(chain[i], fields)
               && forall j :: 0 <= j < i ==> !Owns(chain[j], fields))
              ==> v == Read(chain[i], fields)
  {
    if chain == [] then Null
    else if Owns(chain[0], fields) then Read(chain[0], fields)
    else
      var rest := FirstOwner(chain[1..], fields);
      assert forall i :: 1 <= i < |chain| ==> chain[i] == chain[1..][i - 1];
      rest
  }

  /** Fall-through chain: a strategy that owns the reply but reads nothing
      hands over to the next one. The script does NOT behave like this. */
  function FirstNonNull(chain: seq<Strategy>, fields: map<string, Value>): Value {
    if chain == [] then Null
    else
      var v := if Owns(chain[0], fields) then Read(chain[0], fields) else Null;
      if v != Null then v else FirstNonNull(chain[1..], fields)
  }

  /** The script's extraction is exactly the guarded chain over `Priority`. */
  lemma ExtractIsGuardedChain(resp: Value)
    ensures Extract(resp) == (if resp.Object? then FirstOwner(Priority, resp.fields) else Null)
  {
    if resp.Object? {
      assert Priority[0] == ResultsField && Priority[1] == NestedDataResults;
      assert Priority[2] == ResultField && Priority[3] == SoleStringField;
    }
  }

  /** Whenever the guarded chain produces a caption, the fall-through chain
      produces the same one: the two differ only where the guarded chain
      gives nothing. */
  lemma {:induction false} GuardedAgreesWhenFound(chain: seq<Strategy>, fields: map<string, Value>)
    requires FirstOwner(chain, fields) != Null
    ensures FirstNonNull(chain, fields) == FirstOwner(chain, fields)
  {
    if Owns(chain[0], fields) {
    } else {
      GuardedAgreesWhenFound(chain[1..], fields);
    }
  }

  /** `{"results": null, "result": "x"}`: the script reports no caption,
      where a fall-through chain would have returned "x". */
  lemma NullResultsShadowsResult()
    ensures var resp := Object(map["results" := Null, "result" := Str("x")]);
            Extract(resp) == Null
            && FirstNonNull(Priority, resp.fields) == Str("x")
  {
    var f := map["results" := Null, "result" := Str("x")];
    assert "results" in f && "data" !in f && "result" in f;
    assert |f| == 2 by { assert f.Keys == {"results", "result"}; }
    assert Priority[1..][1..] == [ResultField, SoleStringField];
  }

  /** `{"data": {"x": 1}, "result": "r"}`: the object-valued `data` owns the
      reply, finds no `results`, and `result` is never read. */
  lemma DataObjectShadowsResult()
    ensures Extract(Object(map["data" := Object(map["x" := Num(1.0)]), "result" := Str("r")])) == Null
  {
  }

  /** The single-string fallback, on one-field replies. */
  lemma SoleStringExamples()
    ensures Extract(Object(map["caption" := Str("a fox")])) == Str("a fox")
    ensures Extract(Object(map["data" := Str("x")])) == Str("x")
    ensures Extract(Object(map["foo" := Num(1.0), "bar" := Num(2.0)])) == Null
  {
    var two := map["foo" := Num(1.0), "bar" := Num(2.0)];
    assert |two| == 2 by { assert two.Keys == {"foo", "bar"}; }
  }

  /** The other reply shapes the lookup handles (caption_images.py, lines 147-154). */
  lemma NamedFieldExamples()
    ensures Extract(Object(map["results" := Str("a cat")])) == Str("a cat")
    ensures Extract(Object(map["data" := Object(map["results" := Str("a dog")])])) == Str("a dog")
    ensures Extract(Object(map["result" := Str("a bird")])) == Str("a bird")
  {
  }
}

=== FILE: json.dfy ===
/** Parsed JSON, as `response.json()` hands it to the script. */
module Json {

  /** A JSON value. An object is a map from field name to value: Python's
      `json` module keeps the last of duplicated keys, so a parsed object never
      has two fields with the same name. Numbers are kept as reals; the script
      never looks at their magnitude. */
  datatype Value =
    | Null
    | Bool(b: bool)
    | Num(n: real)
    | Str(s: string)
    | Array(items: seq<Value>)
    | Object(fields: map<string, Value>)

  /** `d.get(key)` on a parsed object: Python's None (JSON null) when the key
      is missing, the stored value otherwise. */
  function Get(fields: map<string, Value>, key: string): (v: Value)
    ensures key !in fields ==> v == Null
    ensures key in fields ==> v == fields[key]
  {
    if key in fields then fields[key] else Null
  }

  /** The value of the only field of a one-field object: what
      `next(iter(d.values()))` returns when `len(d) == 1`. */
  function SoleValue(fields: map<string, Value>): (v: Value)
    requires |fields| == 1
    ensures v in fields.Values
    ensures forall k :: k in fields ==> fields[k] == v
  {
    var k :| k in fields;
    SingletonKey(fields, k);
    fields[k]
  }

  /** In a one-field object every key is the same key. */
  lemma SingletonKey(fields: map<string, Value>, k: string)
    requires |fields| == 1 && k in fields
    ensures fields.Keys == {k}
  {
    var rest := fields.Keys - {k};
    assert |rest| == |fields.Keys| - 1 == 0;
    assert rest == {};
  }
}

=== FILE: naming.dfy ===
/** Which directory entries are images, and where an image's caption goes
    (caption_images.py, lines 25, 69-72 and 88). Names are the final path
    component inside the one images folder. */
module Naming {

  type Path = string

  /** The allow-list of lower-cased extensions. */
  const SupportedExtensions: set<string> := {".jpg", ".jpeg", ".png", ".webp"}

  /** The extension every caption file gets. */
  const CaptionExtension: string := ".txt"

  /** Index of the last occurrence of `c` in `s`, or -1: Python's `str.rfind`. */
  function LastIndexOf(s: string, c: char): (i: int)
    ensures -1 <= i < |s|
    ensures i >= 0 ==> s[i] == c
    ensures forall j :: i < j < |s| ==> s[j] != c
  {
    if |s| == 0 then -1
    else if s[|s| - 1] == c then |s| - 1
    else LastIndexOf(s[..|s| - 1], c)
  }

  /** `PurePath.suffix`: from the last dot, provided that dot is neither the
      first nor the last character of the name; otherwise empty. */
  function Suffix(name: Path): (suf: string)
    ensures suf == "" || (suf[0] == '.' && |suf| >= 2 && '.' !in suf[1..])
    ensures suf != "" ==> 0 < |name| - |suf| && name[|name| - |suf|..] == suf
  {
    var i := LastIndexOf(name, '.');
    if 0 < i < |name| - 1 then
      assert forall j :: 1 <= j < |name| - i ==> name[i..][j] == name[i + j];
      name[i..]
    else ""
  }

  /** `PurePath.stem`: the name without its suffix. */
  function Stem(name: Path): (stem: string)
    ensures stem + Suffix(name) == name
  {
    var i := LastIndexOf(name, '.');
    if 0 < i < |name| - 1 then name[..i] else name
  }

  /** ASCII lower-casing of one character. */
  function LowerChar(c: char): char {
    if 'A' <= c <= 'Z' then (c as int + 32) as char else c
  }

  /** `str.lower` restricted to ASCII letters. */
  function Lower(s: string): (t: string)
    ensures |t| == |s|
    ensures forall i :: 0 <= i < |s| ==> t[i] == LowerChar(s[i])
  {
    seq(|s|, i requires 0 <= i < |s| => LowerChar(s[i]))
  }

  /** The per-file test of the listing comprehension, on the name. */
  predicate Supported(name: Path) {
    Lower(Suffix(name)) in SupportedExtensions
  }

  /** An accepted name has an extension and something before it. */
  lemma SupportedHasStem(name: Path)
    requires Supported(name)
    ensures Suffix(name) != "" && Stem(name) != ""
  {
    assert Lower("") == "";
  }

  /** A directory entry: its name and whether `is_file()` holds of it. */
  datatype Entry = Entry(name: Path, isFile: bool)

  /** The image list: the regular files whose lower-cased suffix is allowed,
      in listing order. */
  function Discover(entries: seq<Entry>): (images: seq<Path>)
    ensures |images| <= |entries|
    ensures forall i :: 0 <= i < |images| ==> Supported(images[i])
  {
    if entries == [] then []
    else
      var e := entries[0];
      var rest := Discover(entries[1..]);
      if e.isFile && Supported(e.name) then [e.name] + rest else rest
  }

  /** A name is discovered exactly when some entry is a regular file of that
      name with an allowed extension. */
  lemma {:induction false} DiscoverMembers(entries: seq<Entry>, n: Path)
    ensures n in Discover(entries) <==>
              exists k :: 0 <= k < |entries| && entries[k].name == n
                          && entries[k].isFile && Supported(n)
  {
    if entries != [] {
      var rest := entries[1..];
      DiscoverMembers(rest, n);
      if exists k :: 0 <= k < |rest| && rest[k].name == n && rest[k].isFile && Supported(n) {
        var k :| 0 <= k < |rest| && rest[k].name == n && rest[k].isFile && Supported(n);
        assert entries[k + 1] == rest[k];
      }
      if exists k :: 0 <= k < |entries| && entries[k].name == n && entries[k].isFile && Supported(n) {
        var k :| 0 <= k < |entries| && entries[k].name == n && entries[k].isFile && Supported(n);
        if k > 0 { assert rest[k - 1] == entries[k]; }
      }
    }
  }

  /** `with_suffix`: appends when there is no suffix, replaces the last one otherwise. */
  function WithSuffix(name: Path, suffix: string): (r: Path)
    ensures r == Stem(name) + suffix
  {
    var current := Suffix(name);
    if current == "" then name + suffix
    else name[..|name| - |current|] + suffix
  }

  /** The caption file that belongs to an image: same stem, extension `.txt`. */
  function CaptionPath(image: Path): (p: Path)
    ensures p == Stem(image) + CaptionExtension
    ensures image != "" ==> Stem(p) == Stem(image) && Suffix(p) == CaptionExtension
  {
    if image != "" then
      StemNonEmpty(image);
      SplitStemAndExtension(Stem(image), CaptionExtension);
      WithSuffix(image, CaptionExtension)
    else WithSuffix(image, CaptionExtension)
  }

  /** A non-empty name has a non-empty stem. */
  lemma StemNonEmpty(name: Path)
    requires name != ""
    ensures Stem(name) != ""
  {
    var i := LastIndexOf(name, '.');
    if 0 < i < |name| - 1 { assert |Stem(name)| == i; }
  }

  /** Discovery keeps listing order: it distributes over concatenation. */
  lemma {:induction false} DiscoverAppend(a: seq<Entry>, b: seq<Entry>)
    ensures Discover(a + b) == Discover(a) + Discover(b)
  {
    if a == [] {
      assert a + b == b;
    } else {
      assert (a + b)[0] == a[0];
      assert (a + b)[1..] == a[1..] + b;
      DiscoverAppend(a[1..], b);
    }
  }

  /** A name made of a non-empty stem and one dotted extension splits back
      into exactly those parts, so its caption replaces only the last
      extension: `a.b.png` captions to `a.b.txt`. */
  lemma SplitStemAndExtension(stem: string, ext: string)
    requires stem != ""
    requires |ext| >= 2 && ext[0] == '.' && '.' !in ext[1..]
    ensures Suffix(stem + ext) == ext
    ensures Stem(stem + ext) == stem
    ensures WithSuffix(stem + ext, CaptionExtension) == stem + CaptionExtension
  {
    var name := stem + ext;
    var i := LastIndexOf(name, '.');
    assert name[|stem|] == '.';
    forall j | |stem| < j < |name| ensures name[j] != '.' {
      assert name[j] == ext[1..][j - |stem| - 1];
    }
    assert i == |stem|;
    assert name[..i] == stem;
    assert name[i..] == ext;
  }

  /** Every allow-listed extension has the shape `SplitStemAndExtension` needs. */
  lemma SupportedShape(ext: string)
    requires ext in SupportedExtensions
    ensures |ext| >= 2 && ext[0] == '.' && '.' !in ext[1..]
  {
    assert ext == ".jpg" || ext == ".jpeg" || ext == ".png" || ext == ".webp";
  }

  /** Every allow-listed extension, after any non-empty stem, is accepted, and
      the image captions to the stem plus `.txt`. */
  lemma AllowedExtensionAccepted(stem: string, ext: string)
    requires stem != "" && ext in SupportedExtensions
    ensures Supported(stem + ext)
    ensures CaptionPath(stem + ext) == stem + CaptionExtension
  {
    SupportedShape(ext);
    SplitStemAndExtension(stem, ext);
    assert Lower(ext) == ext by {
      assert Lower(".jpg") == ".jpg" && Lower(".jpeg") == ".jpeg";
      assert Lower(".png") == ".png" && Lower(".webp") == ".webp";
    }
    AcceptedIffLoweredExtensionAllowed(stem, ext);
  }

  /** A stem made only of dots is a stem like any other: `..png` is accepted
      and captions to `..txt`. */
  lemma DotOnlyStemAccepted()
    ensures Supported("..png") && CaptionPath("..png") == "..txt"
  {
    assert "." + ".png" == "..png";
    AllowedExtensionAccepted(".", ".png");
  }

  /** Acceptance depends only on the lower-cased extension: `photo.JPG` is in,
      `anim.gif` is out, whatever the stem. */
  lemma AcceptedIffLoweredExtensionAllowed(stem: string, ext: string)
    requires stem != ""
    requires |ext| >= 2 && ext[0] == '.' && '.' !in ext[1..]
    ensures Supported(stem + ext) <==> Lower(ext) in SupportedExtensions
  {
    SplitStemAndExtension(stem, ext);
  }

  /** Upper-case extensions are accepted. */
  lemma UpperCaseAccepted(stem: string)
    requires stem != ""
    ensures Supported(stem + ".JPG") && Supported(stem + ".PNG")
  {
    AcceptedIffLoweredExtensionAllowed(stem, ".JPG");
    assert Lower(".JPG") == ".jpg";
    AcceptedIffLoweredExtensionAllowed(stem, ".PNG");
    assert Lower(".PNG") == ".png";
  }

  /** A name without any dot has no suffix and is rejected. */
  lemma DotlessRejected(name: Path)
    requires '.' !in name
    ensures Suffix(name) == "" && !Supported(name)
  {
    assert Lower("") == "";
  }

  /** A dot file such as `.png` has no suffix either and is rejected. */
  lemma DotFileRejected(ext: string)
    requires |ext| >= 2 && ext[0] == '.' && '.' !in ext[1..]
    ensures Suffix(ext) == "" && !Supported(ext)
  {
    assert LastIndexOf(ext, '.') == 0 by {
      forall j | 0 < j < |ext| ensures ext[j] != '.' {
        assert ext[j] == ext[1..][j - 1];
      }
    }
    assert Lower("") == "";
  }

  /** A caption file is never itself taken for an image. */
  lemma CaptionIsNeverAnImage(image: Path)
    requires image != ""
    ensures !Supported(CaptionPath(image))
  {
    assert Suffix(CaptionPath(image)) == CaptionExtension;
    CaptionExtensionNotAllowed();
  }

  /** `.txt`, lower-cased, is not on the allow-list. */
  lemma CaptionExtensionNotAllowed()
    ensures Lower(CaptionExtension) !in SupportedExtensions
  {
    assert Lower(CaptionExtension) == CaptionExtension;
  }

  /** Two images share a caption file exactly when they share a stem, so
      `a.jpg` and `a.png` compete for `a.txt`. */
  lemma SharedCaptionIffSharedStem(a: Path, b: Path)
    ensures CaptionPath(a) == CaptionPath(b) <==> Stem(a) == Stem(b)
  {
    if CaptionPath(a) == CaptionPath(b) {
      var sa, sb := Stem(a), Stem(b);
      assert |sa| == |sb|;
      assert sa == (sa + CaptionExtension)[..|sa|];
      assert sb == (sb + CaptionExtension)[..|sb|];
    }
  }
}

=== FILE: preprocess.dfy ===
/** The resize-if-needed decision (caption_images.py, lines 31-56). The image
    library is a parameter: each of its operations is a function that may
    fail (None), standing for the exception the script catches. */
module Preprocess {
  import opened Base

  /** Byte budget: `1024*1024*5`. */
  const MaxFileSize: nat := 1024 * 1024 * 5

  /** Bounding box, width and height: `(1024, 1024)`. */
  const MaxWidth: nat := 1024
  const MaxHeight: nat := 1024

  /** JPEG quality passed to `save`. */
  const Quality: nat := 85

  /** Format used when the decoded image reports none. */
  const DefaultFormat: string := "JPEG"

  datatype Dims = Dims(width: nat, height: nat)

  /** A decoded image: its size, the format it was read from (None for an
      indeterminate format), and its pixel content. The content is opaque;
      it is there so that `thumbnail` and `save` may depend on more than the
      size, as a truncated file that opens but fails once its pixels are
      loaded does. */
  datatype Image = Image(size: Dims, format: Option<string>, pixels: Bytes)

  /** The image library's three operations, each None when it raises:
      - `open`: `Image.open`, which reads the header (size and format);
      - `thumbnail`: the image after shrinking it into the given box;
      - `save`: encode an image in a format at a quality. */
  datatype Codec = Codec(
    open: Bytes -> Option<Image>,
    thumbnail: (Image, Dims) -> Option<Image>,
    save: (Image, string, nat) -> Option<Bytes>)

  /** The bounding box as `Dims`. */
  const Box: Dims := Dims(MaxWidth, MaxHeight)

  predicate Fits(d: Dims) {
    d.width <= MaxWidth && d.height <= MaxHeight
  }

  /** `img.format or 'JPEG'`. */
  function SaveFormat(format: Option<string>): (f: string)
    ensures f != ""
    ensures format.Some? && format.value != "" ==> f == format.value
  {
    if format.None? || format.value == "" then DefaultFormat else format.value
  }

  /** The dimension probe at the top of the function: the size, or None when
      decoding raised. */
  function Probe(codec: Codec, bytes: Bytes): (size: Option<Dims>)
    ensures size.None? <==> codec.open(bytes).None?
    ensures size.Some? ==> size.value == codec.open(bytes).value.size
  {
    match codec.open(bytes)
    case None => None
    case Some(img) => Some(img.size)
  }

  /** The image handed to `save` on the re-encode path: the freshly decoded
      image, shrunk into the box. `thumbnail` works in place: it replaces
      the size and the pixels and leaves the `format` attribute alone. */
  function Shrunk(codec: Codec, bytes: Bytes): (shrunk: Option<Image>)
    // fails exactly when decoding or shrinking raises
    ensures shrunk.None? <==>
              codec.open(bytes).None? || codec.thumbnail(codec.open(bytes).value, Box).None?
    // otherwise: the thumbnail's size and pixels, the opened image's format
    ensures shrunk.Some? ==>
              var t := codec.thumbnail(codec.open(bytes).value, Box).value;
              shrunk.value == Image(t.size, codec.open(bytes).value.format, t.pixels)
  {
    match codec.open(bytes)
    case None => None
    case Some(img) =>
      match codec.thumbnail(img, Box)
      case None => None
      case Some(t) => Some(Image(t.size, img.format, t.pixels))
  }

  /** The re-encode path: decode, shrink, save; None when any step raised. */
  function Reencode(codec: Codec, bytes: Bytes): (out: Option<Bytes>)
    // fails when decoding or shrinking fails
    ensures Shrunk(codec, bytes).None? ==> out.None?
    // otherwise it is whatever `save` makes of the shrunk image at quality 85
    ensures Shrunk(codec, bytes).Some? ==>
              var img := Shrunk(codec, bytes).value;
              out == codec.save(img, SaveFormat(img.format), Quality)
  {
    match Shrunk(codec, bytes)
    case None => None
    case Some(img) => codec.save(img, SaveFormat(img.format), Quality)
  }

  /** Whether the re-encode path is taken, stated without the script's
      nesting: too many bytes, or a probe that reports a side over the box.
      A probe that raises on a small file keeps it. */
  predicate NeedsShrinking(size: nat, probe: Option<Dims>) {
    size > MaxFileSize || (probe.Some? && !Fits(probe.value))
  }

  /** `resize_image_if_needed`. */
  function ResizeIfNeeded(codec: Codec, bytes: Bytes): (out: Bytes)
    // never fails: the result is the input or a successful re-encoding
    ensures out == bytes || Reencode(codec, bytes) == Some(out)
    // small and within the box, or small and undecodable: kept byte for byte
    ensures !NeedsShrinking(|bytes|, Probe(codec, bytes)) ==> out == bytes
    // otherwise the re-encoding, if it succeeded
    ensures NeedsShrinking(|bytes|, Probe(codec, bytes)) && Reencode(codec, bytes).Some? ==>
              out == Reencode(codec, bytes).value
    // a failed re-encoding falls back to the input
    ensures Reencode(codec, bytes).None? ==> out == bytes
  {
    if |bytes| <= MaxFileSize then
      match codec.open(bytes)
      case None => bytes
      case Some(img) =>
        if img.size.width <= MaxWidth && img.size.height <= MaxHeight then bytes
        else ShrinkOrKeep(codec, bytes)
    else ShrinkOrKeep(codec, bytes)
  }

  /** The `try` around the re-encode path, with its fallback. */
  function ShrinkOrKeep(codec: Codec, bytes: Bytes): (out: Bytes)
    // the re-encoding whenever it succeeds, the input only when it fails
    ensures Reencode(codec, bytes).Some? ==> out == Reencode(codec, bytes).value
    ensures Reencode(codec, bytes).None? ==> out == bytes
  {
    match Reencode(codec, bytes)
    case None => bytes
    case Some(b) => b
  }

  /** A file over the byte budget is never probed: its outcome does not
      depend on what the probe would have said. */
  lemma LargeFilesIgnoreProbe(c1: Codec, c2: Codec, bytes: Bytes)
    requires |bytes| > MaxFileSize
    requires Reencode(c1, bytes) == Reencode(c2, bytes)
    ensures ResizeIfNeeded(c1, bytes) == ResizeIfNeeded(c2, bytes)
  {
  }

  /** The library's own promise about `thumbnail`: when it succeeds, the
      result fits in the box and is no larger than the original. */
  ghost predicate ThumbnailHonoursBox(codec: Codec) {
    forall img: Image :: codec.thumbnail(img, Box).Some? ==>
      && Fits(codec.thumbnail(img, Box).value.size)
      && codec.thumbnail(img, Box).value.size.width <= img.size.width
      && codec.thumbnail(img, Box).value.size.height <= img.size.height
  }

  /** Under that promise, whatever the re-encode path saves fits in the box
      and keeps the source format. */
  lemma ShrunkImageFits(codec: Codec, bytes: Bytes)
    requires ThumbnailHonoursBox(codec)
    requires Shrunk(codec, bytes).Some?
    ensures Fits(Shrunk(codec, bytes).value.size)
    ensures Shrunk(codec, bytes).value.format == codec.open(bytes).value.format
  {
    var img := codec.open(bytes).value;
    assert codec.thumbnail(img, Box).Some?;
  }
}
